=== FILE: README.md ===
# Notifications engine: log-level manager and digest aggregation

This project models two parts of the notifications engine and proves
properties of each.

**`LogLevelManager`** reconciles log levels at runtime. On every scheduler
tick it reads a feature-flag variant.

- An enabled variant carries a JSON list of log configs, each giving a
  category, an optional host name and a Quarkus level name. A config applies
  when it targets this host and names a known level. The category's logger
  takes that level only when it differs from the current one, and the level
  it replaces is saved. Saved categories that the list no longer names go back
  to their saved level and are forgotten.
- A disabled variant reverts every saved category and clears the record.
- An enabled variant whose payload is missing, not of type `json`, null or
  undecodable changes nothing.

The logger registry is a map from category to level. A category that is not
in the map inherits its parent's level, which is Java's `null`. The undo record
maps categories to the level they had, and `None` stands for inherited.
Modules `LogLevelManager` (`log_level_manager.dfy`) and `LogLevelSlots`
(`log_level_slots.dfy`) hold this part. `LogLevelSlots` views one category at
a time and proves that a tick is idempotent.

**`EmailAggregator.getAggregated`** builds the daily digests of one
aggregation scope: an organisation, a bundle and an application. Its source is
not part of this model. Its contract follows what the aggregator test asserts.
Where the test leaves a choice open, the model makes one, and "## Left out"
says which:

- Records are read page by page at offsets 0, n, 2n, … with limit n. Reading
  stops on the first page shorter than n.
- A per-tenant flag selects one of two stores: the legacy aggregation table,
  queried by key, or the event table, queried by criteria. The other store is
  never queried.
- Only records of the scope's organisation, bundle and application are read.
- The identities subscribed to the event types of the records read are resolved
  to users in one batched call. When there is no such identity, the resolver is
  not called at all.
- A user receives the payloads of the records whose event type one of their
  identities is subscribed to. A user who receives nothing gets no digest.

Module `EmailAggregator` (`email_aggregator.dfy`) states this contract.
Module `EmailAggregatorScenario` (`email_aggregator_scenario.dfy`) replays the
test's two rounds on it for both flag values. `Wrappers` (`wrappers.dfy`)
holds the `Option` type.

In every round the test writes four org-1 records and one org-2 record to
each of the two tables, and it never purges between rounds. The second round therefore reads 8 records from whichever single
table the flag selects, and the model does the same.

## Model

Source paths are relative to the repository root.

| member | source | states |
|---|---|---|
| LogLevelManager.GetLogLevel | engine/src/main/java/com/redhat/cloud/notifications/log/LogLevelManager.java:119-128 | a name yields a level exactly when it is that level's Quarkus name: TRACE→FINER, DEBUG→FINE, INFO→INFO, WARN→WARNING, ERROR→SEVERE; every other string yields none |
| LogLevelManager.SetLevel | engine/src/main/java/com/redhat/cloud/notifications/log/LogLevelManager.java:131-133 | `setLevel` gives the category the level, or makes it inherit, and no other category changes |
| LogLevelManager.RevertAll | engine/src/main/java/com/redhat/cloud/notifications/log/LogLevelManager.java:130-135 | reverting a saved record puts every saved category back at its saved level, possibly inherited; unsaved categories keep their level |
| LogLevelManager.RevertAllOneByOne | engine/src/main/java/com/redhat/cloud/notifications/log/LogLevelManager.java:100-106 | the outcome of reverting does not depend on the order the hash map yields entries in: reverting all equals reverting the rest, then any single one |
| LogLevelManager.ApplyConfig | engine/src/main/java/com/redhat/cloud/notifications/log/LogLevelManager.java:77-93 | a config for another host or with an unknown level changes nothing; so does a level equal to the current one; otherwise the category takes the new level and the record saves the level it had just before; other categories are untouched |
| LogLevelManager.ApplyConfigs | engine/src/main/java/com/redhat/cloud/notifications/log/LogLevelManager.java:76-95 | the apply loop only touches categories the list names, and only they can enter the undo record |
| LogLevelManager.Prune | engine/src/main/java/com/redhat/cloud/notifications/log/LogLevelManager.java:97-106 | the record keeps exactly the saved categories the list names, with their saved levels; every other saved category goes back to its saved level |
| LogLevelManager.Disable | engine/src/main/java/com/redhat/cloud/notifications/log/LogLevelManager.java:108-111 | a disabled variant restores every saved level and empties the record; unsaved categories are untouched |
| LogLevelManager.ReadConfigs | engine/src/main/java/com/redhat/cloud/notifications/log/LogLevelManager.java:51-74 | a config list is obtained exactly when the payload is present, of type `json`, has a value and that value decodes |
| LogLevelManager.UpdateLogLevels | engine/src/main/java/com/redhat/cloud/notifications/log/LogLevelManager.java:47-112 | unusable payload: no change; enabled: only configured categories stay saved, forgotten ones are back at their saved level, unconfigured unsaved ones untouched; disabled: all saved levels restored and the record emptied (what happens to configured categories is `LogLevelSlots.UpdateBySlot`) |
| LogLevelSlots.ApplyConfigsBySlot | engine/src/main/java/com/redhat/cloud/notifications/log/LogLevelManager.java:76-95 | on any one category, the apply loop is the fold of that category's requested levels, in list order, over its (level, saved) pair |
| LogLevelSlots.UpdateBySlot | engine/src/main/java/com/redhat/cloud/notifications/log/LogLevelManager.java:76-106 | on an enabled tick, a category the list names ends with the level and saved entry obtained by folding its requested levels, in list order, over its state before the tick; pruning leaves it alone |
| LogLevelSlots.RunSlotEndsAtLast | engine/src/main/java/com/redhat/cloud/notifications/log/LogLevelManager.java:86-93 | a category named several times ends at the last level requested for it |
| LogLevelSlots.RunSlotSteady | engine/src/main/java/com/redhat/cloud/notifications/log/LogLevelManager.java:88-89 | requests equal to the current level change neither the level nor the record |
| LogLevelSlots.RunSlotForgetsSaved | engine/src/main/java/com/redhat/cloud/notifications/log/LogLevelManager.java:90 | from any starting level, inherited included, once some request differs from it the saved entry the category started with no longer matters |
| LogLevelSlots.RunSlotIdempotent | engine/src/main/java/com/redhat/cloud/notifications/log/LogLevelManager.java:88-93 | running one category's requests twice equals running them once |
| LogLevelSlots.SavedIsIntermediate | engine/src/main/java/com/redhat/cloud/notifications/log/LogLevelManager.java:88-91 | after two successive changes of one category the record holds the intermediate level, not the original, because `put` overwrites |
| LogLevelSlots.UpdateIdempotent | engine/src/main/java/com/redhat/cloud/notifications/log/LogLevelManager.java:47-112 | repeating a tick with the same variant and no outside change leaves the loggers and the record as they are |
| EmailAggregator.Matching | engine/src/test/java/com/redhat/cloud/notifications/processors/email/EmailAggregatorTest.java:170-186 | every record read lies in the scope, so the org-2 records are never among them, and every in-scope record of the store is read |
| EmailAggregator.MatchingSingleton | engine/src/test/java/com/redhat/cloud/notifications/processors/email/EmailAggregatorTest.java:170-186 | a single record is kept exactly when it lies in the scope; with `MatchingAppend` this fixes the result as the in-scope records in store order |
| EmailAggregator.MatchingCounts | engine/src/test/java/com/redhat/cloud/notifications/processors/email/EmailAggregatorTest.java:148-164 | every in-scope record is read exactly as often as the store holds it, and no other record is read |
| EmailAggregator.MatchingAppend | engine/src/test/java/com/redhat/cloud/notifications/processors/email/EmailAggregatorTest.java:148 | records buffered in a later round are read after those of an earlier one |
| EmailAggregator.Page | engine/src/test/java/com/redhat/cloud/notifications/processors/email/EmailAggregatorTest.java:135-153 | a page holds at most `limit` records, and it is full exactly when the store reaches `offset + limit` |
| EmailAggregator.FetchFrom | engine/src/test/java/com/redhat/cloud/notifications/processors/email/EmailAggregatorTest.java:148-158 | the pages, read in order, are exactly the records from the starting offset on |
| EmailAggregator.FetchFromOffsets | engine/src/test/java/com/redhat/cloud/notifications/processors/email/EmailAggregatorTest.java:152-158 | the i-th request goes out at `offset + i * pageSize` with limit `pageSize` and the same strategy, and there is at least one |
| EmailAggregator.FetchFromStopsOnShortPage | engine/src/test/java/com/redhat/cloud/notifications/processors/email/EmailAggregatorTest.java:134-156 | every request but the last gets a full page and the last gets a short one, possibly empty |
| EmailAggregator.Fetch | engine/src/test/java/com/redhat/cloud/notifications/processors/email/EmailAggregatorTest.java:133-141 | a fetch reads exactly the scope's records with one strategy throughout |
| EmailAggregator.FetchOffsets | engine/src/test/java/com/redhat/cloud/notifications/processors/email/EmailAggregatorTest.java:133-141 | requests go out at offsets 0, pageSize, 2·pageSize, … with `pageSize` as limit |
| EmailAggregator.FetchCallCount | engine/src/test/java/com/redhat/cloud/notifications/processors/email/EmailAggregatorTest.java:134-156 | with n records, the number of requests k satisfies (k−1)·pageSize ≤ n < k·pageSize |
| EmailAggregator.FragmentsFor | engine/src/test/java/com/redhat/cloud/notifications/processors/email/EmailAggregatorTest.java:143-164 | a user's payload list is empty exactly when no record read reaches one of their subscribed identities |
| EmailAggregator.FragmentsForSingleton | engine/src/test/java/com/redhat/cloud/notifications/processors/email/EmailAggregatorTest.java:143-164 | one record contributes its payload exactly when it reaches the user, and nothing otherwise |
| EmailAggregator.FragmentsForAppend | engine/src/test/java/com/redhat/cloud/notifications/processors/email/EmailAggregatorTest.java:148-164 | the payloads from records read later follow those read earlier: a user's list over two runs of records is the concatenation of the two lists |
| EmailAggregator.Assemble | engine/src/test/java/com/redhat/cloud/notifications/processors/email/EmailAggregatorTest.java:144-164 | only resolved users get digests, each under the application's name alone and never empty; a resolved user gets one exactly when some record reaches them, and it holds exactly the payloads that reach them, in fetch order |
| EmailAggregator.GetAggregated | engine/src/test/java/com/redhat/cloud/notifications/processors/email/EmailAggregatorTest.java:133-165 | every request uses the criteria query exactly when the tenant flag is set; the i-th request goes out at offset i·pageSize with limit pageSize, and with n records there are k ≥ 1 requests where (k−1)·pageSize ≤ n < k·pageSize; the resolver is called at most once, with exactly the identities subscribed to the event types read; with none there is neither a resolver call nor a digest; digests come from the scope's records |
| EmailAggregator.NoDigestOutsideResolved | engine/src/test/java/com/redhat/cloud/notifications/processors/email/EmailAggregatorTest.java:120-128 | only users the resolver returned receive a digest |
| EmailAggregator.FragmentsForAll | engine/src/test/java/com/redhat/cloud/notifications/processors/email/EmailAggregatorTest.java:164 | a user reached by every record receives every payload, in fetch order |
| EmailAggregator.DigestOfFullSubscriber | engine/src/test/java/com/redhat/cloud/notifications/processors/email/EmailAggregatorTest.java:147-164 | a resolved subscriber of the records' event types gets a digest holding all the scope's payloads under the application's name |
| EmailAggregator.NoDigestWithoutSubscription | engine/src/test/java/com/redhat/cloud/notifications/processors/email/EmailAggregatorTest.java:143-144 | a user none of whose identities is subscribed to a record's event type gets no digest |
| EmailAggregatorScenario.MatchingRound | engine/src/test/java/com/redhat/cloud/notifications/processors/email/EmailAggregatorTest.java:170-175 | of one round's five records, the scope keeps the four of org-1, in order |
| EmailAggregatorScenario.FirstRoundRead | engine/src/test/java/com/redhat/cloud/notifications/processors/email/EmailAggregatorTest.java:168-186 | after the first round a call reads that round's four org-1 records, whichever store the flag selects |
| EmailAggregatorScenario.SecondRoundRead | engine/src/test/java/com/redhat/cloud/notifications/processors/email/EmailAggregatorTest.java:148-164 | after the second round a call reads eight records, first round first |
| EmailAggregatorScenario.RequestsFor | engine/src/test/java/com/redhat/cloud/notifications/processors/email/EmailAggregatorTest.java:133-160 | with page size 5, fewer than 5 records take one request at offset 0, and 5 to 9 records take two, at offsets 0 and 5 |
| EmailAggregatorScenario.FirstRoundRequests | engine/src/test/java/com/redhat/cloud/notifications/processors/email/EmailAggregatorTest.java:133-141 | the first round makes exactly one request, at offset 0 with limit 5, to the store the flag selects |
| EmailAggregatorScenario.UnusedSubscriptionGetsNothing | engine/src/test/java/com/redhat/cloud/notifications/processors/email/EmailAggregatorTest.java:143-144 | with "user-2" subscribed only to "not-used", nobody receives a digest, as the test asserts; the model also predicts an empty batch and no resolver call, which the test does not observe |
| EmailAggregatorScenario.FirstRoundHasNoRecipient | engine/src/test/java/com/redhat/cloud/notifications/processors/email/EmailAggregatorTest.java:143-144 | the first round's result is empty, as the test asserts; the model also predicts that this round makes no resolver call, which the test does not observe |
| EmailAggregatorScenario.SecondRoundRequests | engine/src/test/java/com/redhat/cloud/notifications/processors/email/EmailAggregatorTest.java:150-160 | the second round makes exactly two requests, at offsets 0 and 5, both to the store the flag selects |
| EmailAggregatorScenario.SubscriptionGetsAll | engine/src/test/java/com/redhat/cloud/notifications/processors/email/EmailAggregatorTest.java:147-164 | once "user-2" is subscribed to the records' event type, "user-2" is the only recipient and receives every payload read |
| EmailAggregatorScenario.SecondRoundResolverCall | engine/src/test/java/com/redhat/cloud/notifications/processors/email/EmailAggregatorTest.java:165 | the second round makes exactly one resolver call, for {"user-2"} |
| EmailAggregatorScenario.SecondRoundReachesUser2 | engine/src/test/java/com/redhat/cloud/notifications/processors/email/EmailAggregatorTest.java:161-164 | the second round returns one digest: "user-2" with the 8 payloads read, first round first, under "policies" |

## Left out

- The Unleash variant lookup and the scheduler trigger (`LogLevelManager.java:46-49`): the variant is a parameter of each tick.
- The Jackson deserialisation of the payload value: it is the `decode` parameter, and a `None` result stands for a parse failure.
- The configured host name and its "localhost" default: the host name is a parameter of each tick.
- Log messages (`Log.warn`, `Log.infof`, `logUpdated`, `toString`): they are output text with no effect on state.
- `null` fields of a config that targets this host: a `null` level makes the `switch` in `getLogLevel` (`LogLevelManager.java:120`) throw, and a `null` category with a known level makes `Logger.getLogger` (`LogLevelManager.java:86`) throw, aborting the tick after the earlier configs were applied. The model's config fields are never null. A config for another host, or one with an unknown level, is skipped whatever its fields hold, and its category, even a `null` one, still enters the set pruning keeps (`LogLevelManager.java:97-99`).
- A payload whose value is the JSON literal `null`: `readValue` returns `null` and the loop at `LogLevelManager.java:76` throws before any change. The model reaches the same state when `decode` returns `None`.
- `null` elements of the config array: the loop throws when it reaches one, after the earlier configs were applied; that partial state is not modelled.
- Non-standard logger levels: `Level.equals` (`LogLevelManager.java:89`) compares levels by their int value, and a logger may carry a level outside the nine standard java.util.logging ones, such as JBoss's FATAL (1100). The model's `Level` holds only the nine standard values, so a category that starts at any other level is not represented.
- The java.util.logging logger hierarchy: an inherited level is an absent map entry, and the effective level a parent would supply is not modelled.
- Concurrency between scheduler ticks: each tick is one atomic state transition.
- `EmailAggregator.java` is not part of this model. The aggregator model covers what the test asserts about `getAggregated`, plus the choices listed below.
- The aggregation time window, the endpoint repository lookup, database persistence and purging, and the Mockito spies.
- The recipients resolver is a map from identity to user. The test's stub (`EmailAggregatorTest.java:120-128`) returns, for each queried identity, a user whose e-mail is that identity. The resolver's result cache and its clearing are not modelled: each call resolves afresh.
- Payload content: payloads are opaque strings. The JSON structure, the random content and the removal of the "source" element are not modelled.
- Recipients beyond the subscribers, such as the endpoint's tenant-wide targets: the test's only endpoint is an `EMAIL_SUBSCRIPTION` one with default `SystemSubscriptionProperties` (`EmailAggregatorTest.java:115-119`), which adds nobody, and its resolver stub reads only `query.subscribers` (`EmailAggregatorTest.java:120-128`).
- Storage and resolver failures: the model has no error path for them.
- EmailAggregator.GetAggregated: each store returns its records in the order they were buffered, so records of a later round follow those of an earlier one. This order is the model's choice. The test never observes it, because it reads only the size of the digest (`EmailAggregatorTest.java:164`). The "first round first" in the scenario rows rests on this choice.
- EmailAggregator.GetAggregated: the strategy depends only on the tenant's flag, whatever kind of key is passed. The test always pairs the flag with a key of the matching kind: `EventAggregationCriteria` when the flag is set, the legacy `EmailAggregationKey` otherwise (`EmailAggregatorTest.java:188-192`). Given a mismatched pair, the model still picks the strategy from the flag alone. What the source does in that case is not visible.
- EmailAggregator.GetAggregated: the resolver batch is the model's choice, and the test does not fix it. The batch holds the identities subscribed to the event types read. One call covers all those event types, and no call is made when the batch is empty. The test discards round one's resolver invocations (`EmailAggregatorTest.java:145`) before any check on the resolver. It then counts round two's calls with any query (`EmailAggregatorTest.java:165`).
- EmailAggregator.GetAggregated: requires a positive page size. What `getAggregated` does with a non-positive page size is not visible in the test, which sets it to 5 (`EmailAggregatorTest.java:89`). With a page size of 0, every empty page would count as full under the stop-on-short-page rule, so the model's page loop terminates only because of this requirement.
- EmailAggregator.Assemble: the digest's shape, one entry under the application's name holding the payload list in fetch order, belongs to the model. The test reads only the size of the `"policies"` entry (`EmailAggregatorTest.java:164`).
- EmailAggregator.GetAggregated: subscriptions and scope matching compare organisation and application by name. The bundle and application ids of the criteria play no part.
- `KesselService.java` and `KesselAssetsTest.java` are not part of this model: they are client and request-builder plumbing around an external library.

=== FILE: email_aggregator.dfy ===
/** The digest-aggregation contract of `EmailAggregator.getAggregated`.

    The aggregator reads the buffered records of one aggregation key page by
    page from one of two stores, chosen once per call by a per-tenant flag,
    resolves the identities subscribed to the event types it read to users in
    one batched call, skipped when there are none, and gives every resolved
    user the payloads of the records whose event type one of their identities
    is subscribed to. The stores are sequences of
    records in the order the store returns them; the resolver is a function
    from an identity batch to the users it resolves to. */
module EmailAggregator {

  datatype SubscriptionType = Instant | Daily

  /** The legacy aggregation scope, or the event-based criteria that extend it
      with the bundle and application ids (UUIDs, kept as text). */
  datatype AggregationKey =
    | EmailAggregationKey(orgId: string, bundle: string, application: string)
    | EventAggregationCriteria(orgId: string, bundleId: string, applicationId: string,
                               bundle: string, application: string)

  /** One buffered event: its scope, its event type and its payload. */
  datatype AggregationRecord =
    AggregationRecord(orgId: string, bundle: string, application: string, eventType: string, payload: string)

  /** The two record stores: the legacy aggregation table and the event table. */
  datatype Stores = Stores(aggregations: seq<AggregationRecord>, events: seq<AggregationRecord>)

  /** The two repository queries. */
  datatype Strategy = KeyBased | CriteriaBased

  /** One repository page request. */
  datatype FetchCall = FetchCall(strategy: Strategy, offset: nat, limit: nat)

  /** The records read and the page requests made to read them. */
  datatype Fetched = Fetched(records: seq<AggregationRecord>, calls: seq<FetchCall>)

  /** An identity's opt-in to an event type of an application. */
  datatype Subscription =
    Subscription(orgId: string, userId: string, application: string, eventType: string, kind: SubscriptionType)

  /** A resolved recipient. */
  datatype User = User(email: string)

  /** What `getAggregated` depends on outside its arguments. */
  datatype Collaborators = Collaborators(
    useEventAggregation: string -> bool,
    stores: Stores,
    subscriptions: set<Subscription>,
    resolve: set<string> -> map<string, User>)

  /** Payloads per application name. */
  type Digest = map<string, seq<string>>

  /** The digests by recipient, together with the calls made to the
      repository and to the recipient resolver. */
  datatype Aggregation = Aggregation(
    digests: map<User, Digest>,
    fetchCalls: seq<FetchCall>,
    resolverCalls: seq<set<string>>)

  predicate InScope(key: AggregationKey, record: AggregationRecord)
  {
    record.orgId == key.orgId && record.bundle == key.bundle && record.application == key.application
  }

  /** The records of `store` within the key's scope, in store order. */
  function Matching(store: seq<AggregationRecord>, key: AggregationKey): (r: seq<AggregationRecord>)
    ensures |r| <= |store|
    ensures forall i :: 0 <= i < |r| ==> InScope(key, r[i])
    ensures forall i :: 0 <= i < |store| && InScope(key, store[i]) ==> store[i] in r
    decreases |store|
  {
    if store == [] then []
    else
      var rest := Matching(store[1..], key);
      assert forall i :: 1 <= i < |store| ==> store[i] == store[1..][i - 1];
      if InScope(key, store[0]) then [store[0]] + rest else rest
  }

  /** The store the strategy queries. */
  function StoreFor(strategy: Strategy, stores: Stores): seq<AggregationRecord>
  {
    match strategy
    case KeyBased => stores.aggregations
    case CriteriaBased => stores.events
  }

  /** One page request over the in-scope records: at most `limit` of them,
      starting at `offset`. */
  function Page(records: seq<AggregationRecord>, offset: nat, limit: nat): (r: seq<AggregationRecord>)
    ensures |r| <= limit
    ensures limit > 0 ==> (|r| == limit <==> offset + limit <= |records|)
  {
    records[Min(offset, |records|) .. Min(offset + limit, |records|)]
  }

  function Min(a: nat, b: nat): nat
  {
    if a <= b then a else b
  }

  /** The page loop from `offset` on over the in-scope records: it requests
      pages of `pageSize` until a page comes back short. A short page, even an
      empty one, is the last. Read in order, the pages are exactly the records
      from `offset` on. */
  function FetchFrom(strategy: Strategy, records: seq<AggregationRecord>, offset: nat, pageSize: nat): (r: Fetched)
    requires pageSize > 0
    ensures offset <= |records| ==> r.records == records[offset..]
    ensures offset > |records| ==> r.records == []
    decreases |records| - offset
  {
    var page := Page(records, offset, pageSize);
    var call := FetchCall(strategy, offset, pageSize);
    if |page| < pageSize then Fetched(page, [call])
    else
      var rest := FetchFrom(strategy, records, offset + pageSize, pageSize);
      assert page == records[offset .. offset + pageSize];
      assert records[offset..] == page + records[offset + pageSize..];
      Fetched(page + rest.records, [call] + rest.calls)
  }

  /** The offset of the `i`-th page, `i * pageSize` (see `PageStartIsProduct`),
      written as repeated addition so that the proofs about the loop stay linear. */
  function PageStart(i: nat, pageSize: nat): nat
  {
    if i == 0 then 0 else PageStart(i - 1, pageSize) + pageSize
  }

  lemma {:induction false} PageStartIsProduct(i: nat, pageSize: nat)
    ensures PageStart(i, pageSize) == i * pageSize
  {
    if i > 0 {
      PageStartIsProduct(i - 1, pageSize);
      assert (i - 1) * pageSize + pageSize == i * pageSize;
    }
  }

  /** One turn of the loop: a request at `offset`, then the rest of the loop
      exactly when that page came back full. */
  lemma FetchFromStep(strategy: Strategy, records: seq<AggregationRecord>, offset: nat, pageSize: nat)
    requires pageSize > 0
    ensures FetchFrom(strategy, records, offset, pageSize).calls
         == if offset + pageSize <= |records|
            then [FetchCall(strategy, offset, pageSize)] + FetchFrom(strategy, records, offset + pageSize, pageSize).calls
            else [FetchCall(strategy, offset, pageSize)]
  {
  }

  /** The requests the loop makes: at least one, all with the same strategy
      and limit, the `i`-th at `offset + i * pageSize`. */
  lemma {:induction false} FetchFromOffsets(strategy: Strategy, records: seq<AggregationRecord>, offset: nat, pageSize: nat)
    requires pageSize > 0
    ensures var calls := FetchFrom(strategy, records, offset, pageSize).calls;
            && |calls| >= 1
            && forall i :: 0 <= i < |calls| ==> calls[i] == FetchCall(strategy, offset + PageStart(i, pageSize), pageSize)
    decreases |records| - offset
  {
    var calls := FetchFrom(strategy, records, offset, pageSize).calls;
    FetchFromStep(strategy, records, offset, pageSize);
    if offset + pageSize <= |records| {
      var rest := FetchFrom(strategy, records, offset + pageSize, pageSize).calls;
      FetchFromOffsets(strategy, records, offset + pageSize, pageSize);
      assert calls == [FetchCall(strategy, offset, pageSize)] + rest;
      forall i | 1 <= i < |calls|
        ensures calls[i] == FetchCall(strategy, offset + PageStart(i, pageSize), pageSize)
      {
        assert calls[i] == rest[i - 1];
        assert PageStart(i, pageSize) == PageStart(i - 1, pageSize) + pageSize;
      }
    }
  }

  /** The loop stops on the first short page: every request but the last is
      answered by a full page, the last by a short (possibly empty) one. */
  lemma {:induction false} FetchFromStopsOnShortPage(strategy: Strategy, records: seq<AggregationRecord>, offset: nat, pageSize: nat)
    requires pageSize > 0
    ensures var calls := FetchFrom(strategy, records, offset, pageSize).calls;
            && |calls| >= 1
            && (forall i :: 0 <= i < |calls| - 1 ==> calls[i].offset + pageSize <= |records|)
            && calls[|calls| - 1].offset + pageSize > |records|
    decreases |records| - offset
  {
    var calls := FetchFrom(strategy, records, offset, pageSize).calls;
    FetchFromStep(strategy, records, offset, pageSize);
    if offset + pageSize <= |records| {
      var rest := FetchFrom(strategy, records, offset + pageSize, pageSize).calls;
      FetchFromStopsOnShortPage(strategy, records, offset + pageSize, pageSize);
      assert calls == [FetchCall(strategy, offset, pageSize)] + rest;
      forall i | 1 <= i < |calls| - 1 ensures calls[i].offset + pageSize <= |records| {
        assert calls[i] == rest[i - 1];
      }
      assert calls[|calls| - 1] == rest[|rest| - 1];
    } else {
      assert calls == [FetchCall(strategy, offset, pageSize)];
    }
  }

  /** The whole page loop over the key's records in `store`, from offset 0. */
  function Fetch(strategy: Strategy, store: seq<AggregationRecord>, key: AggregationKey, pageSize: nat): (r: Fetched)
    requires pageSize > 0
    ensures r.records == Matching(store, key)
    ensures |r.calls| >= 1 && forall i :: 0 <= i < |r.calls| ==> r.calls[i].strategy == strategy
  {
    FetchFromOffsets(strategy, Matching(store, key), 0, pageSize);
    FetchFrom(strategy, Matching(store, key), 0, pageSize)
  }

  /** Page requests go out at offsets 0, pageSize, 2 * pageSize, ..., all with
      the strategy's query and `pageSize` as limit. */
  lemma FetchOffsets(strategy: Strategy, store: seq<AggregationRecord>, key: AggregationKey, pageSize: nat)
    requires pageSize > 0
    ensures var calls := Fetch(strategy, store, key, pageSize).calls;
            forall i :: 0 <= i < |calls| ==> calls[i] == FetchCall(strategy, PageStart(i, pageSize), pageSize)
  {
    FetchFromOffsets(strategy, Matching(store, key), 0, pageSize);
  }

  /** The loop makes one request per full page plus the short one that ends
      it: with `n` in-scope records, `k` requests where
      `(k - 1) * pageSize <= n < k * pageSize`, which is `n / pageSize + 1`. */
  lemma FetchCallCount(strategy: Strategy, store: seq<AggregationRecord>, key: AggregationKey, pageSize: nat)
    requires pageSize > 0
    ensures var k := |Fetch(strategy, store, key, pageSize).calls|;
            PageStart(k - 1, pageSize) <= |Matching(store, key)| < PageStart(k, pageSize)
  {
    var calls := Fetch(strategy, store, key, pageSize).calls;
    var k := |calls|;
    var n := |Matching(store, key)|;
    FetchFromOffsets(strategy, Matching(store, key), 0, pageSize);
    FetchFromStopsOnShortPage(strategy, Matching(store, key), 0, pageSize);
    assert calls[k - 1].offset == PageStart(k - 1, pageSize);
    if k > 1 {
      assert calls[k - 2].offset + pageSize <= n;
      assert calls[k - 2].offset == PageStart(k - 2, pageSize);
    }
  }

  /** The strategy is chosen once per call from the tenant's flag. */
  function SelectStrategy(useEventAggregation: string -> bool, key: AggregationKey): Strategy
  {
    if useEventAggregation(key.orgId) then CriteriaBased else KeyBased
  }

  /** The event types of the records read. */
  function EventTypes(records: seq<AggregationRecord>): set<string>
  {
    set i | 0 <= i < |records| :: records[i].eventType
  }

  /** The resolver batch: the identities subscribed, in the key's
      organisation and application, to the event type of some record read. */
  function Subscribers(subscriptions: set<Subscription>, key: AggregationKey, kind: SubscriptionType,
                       records: seq<AggregationRecord>): (r: set<string>)
    ensures forall id :: id in r <==>
              exists i :: 0 <= i < |records| && SubscribedTo(subscriptions, key, kind, id, records[i].eventType)
  {
    var batch := set s | s in subscriptions && s.orgId == key.orgId && s.application == key.application
                         && s.kind == kind && s.eventType in EventTypes(records) :: s.userId;
    assert forall id :: id in batch ==>
             exists i :: 0 <= i < |records| && SubscribedTo(subscriptions, key, kind, id, records[i].eventType) by {
      forall id | id in batch
        ensures exists i :: 0 <= i < |records| && SubscribedTo(subscriptions, key, kind, id, records[i].eventType)
      {
        var s :| s in subscriptions && s.orgId == key.orgId && s.application == key.application
                 && s.kind == kind && s.eventType in EventTypes(records) && s.userId == id;
        var i :| 0 <= i < |records| && records[i].eventType == s.eventType;
        assert s == Subscription(key.orgId, id, key.application, records[i].eventType, kind);
      }
    }
    assert forall i, id :: 0 <= i < |records| && SubscribedTo(subscriptions, key, kind, id, records[i].eventType)
             ==> id in batch by {
      forall i, id | 0 <= i < |records| && SubscribedTo(subscriptions, key, kind, id, records[i].eventType)
        ensures id in batch
      {
        var s := Subscription(key.orgId, id, key.application, records[i].eventType, kind);
        assert s.eventType in EventTypes(records);
      }
    }
    batch
  }

  /** Whether `id` is subscribed to `eventType` of the key's application. */
  predicate SubscribedTo(subscriptions: set<Subscription>, key: AggregationKey, kind: SubscriptionType,
                         id: string, eventType: string)
  {
    Subscription(key.orgId, id, key.application, eventType, kind) in subscriptions
  }

  /** Whether a record reaches `user`: one of the identities resolved to that
      user is subscribed to the record's event type. */
  predicate Reaches(subscriptions: set<Subscription>, key: AggregationKey, kind: SubscriptionType,
                    resolved: map<string, User>, user: User, record: AggregationRecord)
  {
    exists id :: id in resolved && resolved[id] == user && SubscribedTo(subscriptions, key, kind, id, record.eventType)
  }

  /** The payloads a user receives, in fetch order. */
  function FragmentsFor(records: seq<AggregationRecord>, subscriptions: set<Subscription>, key: AggregationKey,
                        kind: SubscriptionType, resolved: map<string, User>, user: User): (r: seq<string>)
    ensures |r| <= |records|
    ensures r == [] <==> forall i :: 0 <= i < |records| ==> !Reaches(subscriptions, key, kind, resolved, user, records[i])
    decreases |records|
  {
    if records == [] then []
    else
      var rest := FragmentsFor(records[1..], subscriptions, key, kind, resolved, user);
      assert forall i :: 1 <= i < |records| ==> records[i] == records[1..][i - 1];
      if Reaches(subscriptions, key, kind, resolved, user, records[0]) then [records[0].payload] + rest else rest
  }

  function Payloads(records: seq<AggregationRecord>): (r: seq<string>)
    ensures |r| == |records|
    ensures forall i :: 0 <= i < |records| ==> r[i] == records[i].payload
  {
    seq(|records|, i requires 0 <= i < |records| => records[i].payload)
  }

  /** Joins the resolved users with the fetched records: a user gets the
      payloads that reach them, under the key's application, and a user
      reached by none gets no digest at all. */
  function Assemble(records: seq<AggregationRecord>, subscriptions: set<Subscription>, key: AggregationKey,
                    kind: SubscriptionType, resolved: map<string, User>): (r: map<User, Digest>)
    ensures r.Keys <= resolved.Values
    ensures forall u :: u in r ==>
              r[u].Keys == {key.application} && 0 < |r[u][key.application]| <= |records|
    ensures forall u :: u in resolved.Values ==>
              (u in r <==> exists i :: 0 <= i < |records| && Reaches(subscriptions, key, kind, resolved, u, records[i]))
    ensures forall u :: u in r ==> r[u][key.application] == FragmentsFor(records, subscriptions, key, kind, resolved, u)
  {
    map u | u in resolved.Values && FragmentsFor(records, subscriptions, key, kind, resolved, u) != []
      :: map[key.application := FragmentsFor(records, subscriptions, key, kind, resolved, u)]
  }

  /** The records the call reads: the key's records in the store the
      tenant's strategy selects. */
  function RecordsRead(env: Collaborators, key: AggregationKey): seq<AggregationRecord>
  {
    Matching(StoreFor(SelectStrategy(env.useEventAggregation, key), env.stores), key)
  }

  /** The resolver batch of a call: the subscribers of the records it reads. */
  function Batch(env: Collaborators, key: AggregationKey, kind: SubscriptionType): set<string>
  {
    Subscribers(env.subscriptions, key, kind, RecordsRead(env, key))
  }

  /** The resolver's answer for the batch; nothing is asked when it is empty. */
  function Resolved(env: Collaborators, key: AggregationKey, kind: SubscriptionType): map<string, User>
  {
    if Batch(env, key, kind) == {} then map[] else env.resolve(Batch(env, key, kind))
  }

  /** `getAggregated`: fetch with the tenant's strategy, resolve the
      subscribers of the records read in one batch, and keep the users who
      receive at least one payload. */
  function GetAggregated(env: Collaborators, key: AggregationKey, kind: SubscriptionType, pageSize: nat): (r: Aggregation)
    requires pageSize > 0
    // one strategy per call, chosen by the tenant flag
    ensures forall i :: 0 <= i < |r.fetchCalls| ==>
              (r.fetchCalls[i].strategy == CriteriaBased <==> env.useEventAggregation(key.orgId))
    // pages of `pageSize` at offsets 0, pageSize, 2 * pageSize, ... until the first short one
    ensures forall i :: 0 <= i < |r.fetchCalls| ==>
              r.fetchCalls[i] == FetchCall(SelectStrategy(env.useEventAggregation, key), PageStart(i, pageSize), pageSize)
    ensures |r.fetchCalls| >= 1
    ensures PageStart(|r.fetchCalls| - 1, pageSize) <= |RecordsRead(env, key)| < PageStart(|r.fetchCalls|, pageSize)
    // at most one resolver call, carrying the whole batch
    ensures |r.resolverCalls| <= 1
    ensures Batch(env, key, kind) != {} ==> r.resolverCalls == [Batch(env, key, kind)]
    // no subscriber of a record read, no resolver call and no digest
    ensures Batch(env, key, kind) == {} ==> r.resolverCalls == [] && r.digests == map[]
    // every digest comes from the records of the selected store
    ensures r.digests == Assemble(RecordsRead(env, key), env.subscriptions, key, kind, Resolved(env, key, kind))
  {
    var strategy := SelectStrategy(env.useEventAggregation, key);
    var store := StoreFor(strategy, env.stores);
    FetchOffsets(strategy, store, key, pageSize);
    FetchCallCount(strategy, store, key, pageSize);
    var fetched := Fetch(strategy, store, key, pageSize);
    var batch := Subscribers(env.subscriptions, key, kind, fetched.records);
    Aggregation(Assemble(fetched.records, env.subscriptions, key, kind, Resolved(env, key, kind)),
                fetched.calls,
                if batch == {} then [] else [batch])
  }

  /** Only users the resolver returned receive a digest. */
  lemma NoDigestOutsideResolved(env: Collaborators, key: AggregationKey, kind: SubscriptionType, pageSize: nat)
    requires pageSize > 0
    ensures GetAggregated(env, key, kind, pageSize).digests.Keys <= Resolved(env, key, kind).Values
  {
  }

  /** Every in-scope record of the store is read exactly as often as the
      store holds it, and no other record is. */
  lemma {:induction false} MatchingCounts(store: seq<AggregationRecord>, key: AggregationKey)
    ensures forall x :: multiset(Matching(store, key))[x] == if InScope(key, x) then multiset(store)[x] else 0
    decreases |store|
  {
    if store != [] {
      MatchingCounts(store[1..], key);
      assert store == [store[0]] + store[1..];
      assert multiset(store) == multiset{store[0]} + multiset(store[1..]);
      if InScope(key, store[0]) {
        assert Matching(store, key) == [store[0]] + Matching(store[1..], key);
        assert multiset(Matching(store, key)) == multiset{store[0]} + multiset(Matching(store[1..], key));
      }
    }
  }

  /** Reading two runs of a store one after the other reads the key's records
      of the first, then those of the second. */
  lemma {:induction false} MatchingAppend(a: seq<AggregationRecord>, b: seq<AggregationRecord>, key: AggregationKey)
    ensures Matching(a + b, key) == Matching(a, key) + Matching(b, key)
    decreases |a|
  {
    if a != [] {
      assert (a + b)[1..] == a[1..] + b;
      MatchingAppend(a[1..], b, key);
    } else {
      assert a + b == b;
    }
  }

  /** A single record is read exactly when it is in scope. With
      `MatchingAppend` this pins `Matching` down as the order-keeping filter. */
  lemma MatchingSingleton(record: AggregationRecord, key: AggregationKey)
    ensures Matching([record], key) == if InScope(key, record) then [record] else []
  {
    assert [record][1..] == [];
  }

  /** One record gives a user its payload exactly when it reaches them. */
  lemma FragmentsForSingleton(record: AggregationRecord, subscriptions: set<Subscription>, key: AggregationKey,
                              kind: SubscriptionType, resolved: map<string, User>, user: User)
    ensures FragmentsFor([record], subscriptions, key, kind, resolved, user)
         == if Reaches(subscriptions, key, kind, resolved, user, record) then [record.payload] else []
  {
    assert [record][1..] == [];
  }

  /** One step of `FragmentsFor`: the first record's payload, if it reaches
      the user, then the rest. */
  lemma FragmentsForCons(record: AggregationRecord, rest: seq<AggregationRecord>, subscriptions: set<Subscription>,
                         key: AggregationKey, kind: SubscriptionType, resolved: map<string, User>, user: User)
    ensures FragmentsFor([record] + rest, subscriptions, key, kind, resolved, user)
         == (if Reaches(subscriptions, key, kind, resolved, user, record) then [record.payload] else [])
            + FragmentsFor(rest, subscriptions, key, kind, resolved, user)
  {
    assert ([record] + rest)[1..] == rest;
  }

  /** Pages are merged in fetch order: a user's payloads from two runs of
      records are those of the first run, then those of the second. With
      `FragmentsForSingleton` this pins the payload list down completely. */
  lemma {:induction false} FragmentsForAppend(a: seq<AggregationRecord>, b: seq<AggregationRecord>,
                                              subscriptions: set<Subscription>, key: AggregationKey,
                                              kind: SubscriptionType, resolved: map<string, User>, user: User)
    ensures FragmentsFor(a + b, subscriptions, key, kind, resolved, user)
         == FragmentsFor(a, subscriptions, key, kind, resolved, user)
          + FragmentsFor(b, subscriptions, key, kind, resolved, user)
    decreases |a|
  {
    if a != [] {
      var head := if Reaches(subscriptions, key, kind, resolved, user, a[0]) then [a[0].payload] else [];
      assert FragmentsFor(a + b, subscriptions, key, kind, resolved, user)
             == head + FragmentsFor(a[1..] + b, subscriptions, key, kind, resolved, user) by {
        FragmentsForCons(a[0], a[1..] + b, subscriptions, key, kind, resolved, user);
        assert [a[0]] + (a[1..] + b) == a + b;
      }
      assert FragmentsFor(a, subscriptions, key, kind, resolved, user)
             == head + FragmentsFor(a[1..], subscriptions, key, kind, resolved, user) by {
        FragmentsForCons(a[0], a[1..], subscriptions, key, kind, resolved, user);
        assert [a[0]] + a[1..] == a;
      }
      FragmentsForAppend(a[1..], b, subscriptions, key, kind, resolved, user);
    } else {
      assert a + b == b;
    }
  }

  /** A user reached by every record receives every payload, in fetch order. */
  lemma {:induction false} FragmentsForAll(records: seq<AggregationRecord>, subscriptions: set<Subscription>,
                                           key: AggregationKey, kind: SubscriptionType,
                                           resolved: map<string, User>, user: User)
    requires forall i :: 0 <= i < |records| ==> Reaches(subscriptions, key, kind, resolved, user, records[i])
    ensures FragmentsFor(records, subscriptions, key, kind, resolved, user) == Payloads(records)
    decreases |records|
  {
    if records != [] {
      assert forall i :: 0 <= i < |records[1..]| ==> records[1..][i] == records[i + 1];
      FragmentsForAll(records[1..], subscriptions, key, kind, resolved, user);
      assert Payloads(records) == [records[0].payload] + Payloads(records[1..]);
    }
  }

  /** If an identity of the application's subscribers resolves to `user` and
      is subscribed to the event type of every in-scope record, `user`'s
      digest holds all of those records' payloads in fetch order. */
  lemma DigestOfFullSubscriber(env: Collaborators, key: AggregationKey, kind: SubscriptionType, pageSize: nat,
                               id: string, user: User)
    requires pageSize > 0
    requires RecordsRead(env, key) != []
    requires forall i :: 0 <= i < |RecordsRead(env, key)| ==>
               SubscribedTo(env.subscriptions, key, kind, id, RecordsRead(env, key)[i].eventType)
    requires id in Resolved(env, key, kind) && Resolved(env, key, kind)[id] == user
    ensures user in GetAggregated(env, key, kind, pageSize).digests
    ensures GetAggregated(env, key, kind, pageSize).digests[user] == map[key.application := Payloads(RecordsRead(env, key))]
  {
    var records := RecordsRead(env, key);
    var resolved := Resolved(env, key, kind);
    forall i | 0 <= i < |records| ensures Reaches(env.subscriptions, key, kind, resolved, user, records[i]) {
      assert SubscribedTo(env.subscriptions, key, kind, id, records[i].eventType);
    }
    FragmentsForAll(records, env.subscriptions, key, kind, resolved, user);
  }

  /** A user none of whose identities is subscribed to the event type of any
      in-scope record gets no digest. */
  lemma NoDigestWithoutSubscription(env: Collaborators, key: AggregationKey, kind: SubscriptionType, pageSize: nat,
                                    user: User)
    requires pageSize > 0
    requires forall i, id :: 0 <= i < |RecordsRead(env, key)| && id in Resolved(env, key, kind)
                             && Resolved(env, key, kind)[id] == user ==>
               !SubscribedTo(env.subscriptions, key, kind, id, RecordsRead(env, key)[i].eventType)
    ensures user !in GetAggregated(env, key, kind, pageSize).digests
  {
    var records := RecordsRead(env, key);
    var resolved := Resolved(env, key, kind);
    forall i | 0 <= i < |records| ensures !Reaches(env.subscriptions, key, kind, resolved, user, records[i]) {
    }
  }
}

=== FILE: email_aggregator_scenario.dfy ===
/** The two aggregation rounds of the aggregator's parameterised test,
    replayed on the model for both values of the tenant flag: a page size of
    5, a resolver that maps every identity to the user with that e-mail, and
    "user-2" first subscribed to an unused event type only, then to the event
    type of the buffered records as well. */
module EmailAggregatorScenario {
  import opened EmailAggregator

  const PageSize: nat := 5
  const RecordType := "event-type"
  const UnusedType := "not-used"

  /** The scope both rounds aggregate, as a legacy key or as event criteria. */
  function KeyFor(useEvents: bool): AggregationKey
  {
    if useEvents then EventAggregationCriteria("org-1", "rhel-id", "policies-id", "rhel", "policies")
    else EmailAggregationKey("org-1", "rhel", "policies")
  }

  function Rec(orgId: string, payload: string): AggregationRecord
  {
    AggregationRecord(orgId, "rhel", "policies", RecordType, payload)
  }

  /** What one round buffers: four records of org-1, then one of org-2. */
  function Round(p: string, q: string, r: string, s: string, t: string): seq<AggregationRecord>
  {
    [Rec("org-1", p), Rec("org-1", q), Rec("org-1", r), Rec("org-1", s), Rec("org-2", t)]
  }

  const FirstRound := Round("a1", "a2", "a3", "a4", "a5")
  const SecondRound := Round("b1", "b2", "b3", "b4", "b5")

  function Identity(batch: set<string>): map<string, User>
  {
    map id | id in batch :: User(id)
  }

  function Sub(eventType: string): Subscription
  {
    Subscription("org-1", "user-2", "policies", eventType, Daily)
  }

  /** Both stores receive the same records; the flag picks which is read. */
  function Env(useEvents: bool, records: seq<AggregationRecord>, subscriptions: set<Subscription>): Collaborators
  {
    Collaborators(_ => useEvents, Stores(records, records), subscriptions, Identity)
  }

  function StrategyFor(useEvents: bool): Strategy
  {
    if useEvents then CriteriaBased else KeyBased
  }

  /** The org-1 records of one buffered round, in order. */
  function Org1(p: string, q: string, r: string, s: string): seq<AggregationRecord>
  {
    [Rec("org-1", p), Rec("org-1", q), Rec("org-1", r), Rec("org-1", s)]
  }

  predicate OfType(records: seq<AggregationRecord>, eventType: string)
  {
    forall i :: 0 <= i < |records| ==> records[i].eventType == eventType
  }

  lemma Org1OfType(p: string, q: string, r: string, s: string)
    ensures OfType(Org1(p, q, r, s), RecordType)
  {
    var x := Org1(p, q, r, s);
    assert x[0].eventType == x[1].eventType == x[2].eventType == x[3].eventType == RecordType;
  }

  lemma OfTypeAppend(a: seq<AggregationRecord>, b: seq<AggregationRecord>, eventType: string)
    requires OfType(a, eventType) && OfType(b, eventType)
    ensures OfType(a + b, eventType)
  {
    forall i | 0 <= i < |a + b| ensures (a + b)[i].eventType == eventType {
      if i >= |a| {
        assert (a + b)[i] == b[i - |a|];
      }
    }
  }

  /** The names the rounds use are distinct. */
  lemma NamesDiffer()
    ensures "org-1" != "org-2" && RecordType != UnusedType
  {
    assert "org-1"[4] != "org-2"[4];
    assert RecordType[0] != UnusedType[0];
  }

  /** Four in-scope records followed by one out of scope: the out-of-scope
      one is dropped. */
  lemma MatchingFiveDropLast(key: AggregationKey, a: AggregationRecord, b: AggregationRecord, c: AggregationRecord,
                             d: AggregationRecord, e: AggregationRecord)
    requires InScope(key, a) && InScope(key, b) && InScope(key, c) && InScope(key, d) && !InScope(key, e)
    ensures Matching([a, b, c, d, e], key) == [a, b, c, d]
  {
    MatchingStep(key, e, []);
    MatchingStep(key, d, [e]);
    MatchingStep(key, c, [d, e]);
    MatchingStep(key, b, [c, d, e]);
    MatchingStep(key, a, [b, c, d, e]);
  }

  lemma MatchingStep(key: AggregationKey, r: AggregationRecord, rest: seq<AggregationRecord>)
    ensures Matching([r] + rest, key) == (if InScope(key, r) then [r] else []) + Matching(rest, key)
  {
    assert ([r] + rest)[1..] == rest;
  }

  /** The aggregated scope keeps a round's org-1 records and drops org-2's. */
  lemma MatchingRound(key: AggregationKey, p: string, q: string, r: string, s: string, t: string)
    requires key.orgId == "org-1" && key.bundle == "rhel" && key.application == "policies"
    ensures Matching(Round(p, q, r, s, t), key) == Org1(p, q, r, s)
  {
    NamesDiffer();
    MatchingFiveDropLast(key, Rec("org-1", p), Rec("org-1", q), Rec("org-1", r), Rec("org-1", s), Rec("org-2", t));
  }

  /** Whichever store the flag selects, a call reads the scope's records of
      what both stores were given. */
  lemma ReadsTheStore(useEvents: bool, records: seq<AggregationRecord>, subscriptions: set<Subscription>)
    ensures RecordsRead(Env(useEvents, records, subscriptions), KeyFor(useEvents)) == Matching(records, KeyFor(useEvents))
  {
  }

  /** The records a call reads after the first round: its four org-1 records. */
  lemma FirstRoundRead(useEvents: bool, subscriptions: set<Subscription>)
    ensures RecordsRead(Env(useEvents, FirstRound, subscriptions), KeyFor(useEvents)) == Org1("a1", "a2", "a3", "a4")
    ensures OfType(RecordsRead(Env(useEvents, FirstRound, subscriptions), KeyFor(useEvents)), RecordType)
  {
    ReadsTheStore(useEvents, FirstRound, subscriptions);
    MatchingRound(KeyFor(useEvents), "a1", "a2", "a3", "a4", "a5");
    Org1OfType("a1", "a2", "a3", "a4");
  }

  /** After the second round: the eight org-1 records, first round first. */
  lemma SecondRoundRead(useEvents: bool, subscriptions: set<Subscription>)
    ensures RecordsRead(Env(useEvents, FirstRound + SecondRound, subscriptions), KeyFor(useEvents))
         == Org1("a1", "a2", "a3", "a4") + Org1("b1", "b2", "b3", "b4")
    ensures OfType(RecordsRead(Env(useEvents, FirstRound + SecondRound, subscriptions), KeyFor(useEvents)), RecordType)
  {
    ReadsTheStore(useEvents, FirstRound + SecondRound, subscriptions);
    MatchingAppend(FirstRound, SecondRound, KeyFor(useEvents));
    MatchingRound(KeyFor(useEvents), "a1", "a2", "a3", "a4", "a5");
    MatchingRound(KeyFor(useEvents), "b1", "b2", "b3", "b4", "b5");
    Org1OfType("a1", "a2", "a3", "a4");
    Org1OfType("b1", "b2", "b3", "b4");
    OfTypeAppend(Org1("a1", "a2", "a3", "a4"), Org1("b1", "b2", "b3", "b4"), RecordType);
  }

  /** With `n` records to read and a page size of 5, `n < 5` takes one
      request at offset 0 and `5 <= n < 10` two, at offsets 0 and 5. */
  lemma RequestsFor(strategy: Strategy, store: seq<AggregationRecord>, key: AggregationKey)
    ensures |Matching(store, key)| < 5 ==>
              Fetch(strategy, store, key, PageSize).calls == [FetchCall(strategy, 0, PageSize)]
    ensures 5 <= |Matching(store, key)| < 10 ==>
              Fetch(strategy, store, key, PageSize).calls
                == [FetchCall(strategy, 0, PageSize), FetchCall(strategy, 5, PageSize)]
  {
    FetchFromStep(strategy, Matching(store, key), 0, PageSize);
    FetchFromStep(strategy, Matching(store, key), 5, PageSize);
  }

  /** What a call with page size 5 requests: one page when fewer than five
      records are read, two when five to nine are. */
  lemma RequestsOfCall(env: Collaborators, key: AggregationKey)
    ensures var calls := GetAggregated(env, key, Daily, PageSize).fetchCalls;
            var strategy := SelectStrategy(env.useEventAggregation, key);
            && (|RecordsRead(env, key)| < 5 ==> calls == [FetchCall(strategy, 0, PageSize)])
            && (5 <= |RecordsRead(env, key)| < 10 ==>
                  calls == [FetchCall(strategy, 0, PageSize), FetchCall(strategy, 5, PageSize)])
  {
    var strategy := SelectStrategy(env.useEventAggregation, key);
    RequestsFor(strategy, StoreFor(strategy, env.stores), key);
  }

  /** First round: the four in-scope records fit one short page, so a
      single request at offset 0 goes to the store the flag selects. */
  lemma FirstRoundRequests(useEvents: bool)
    ensures GetAggregated(Env(useEvents, FirstRound, {Sub(UnusedType)}), KeyFor(useEvents), Daily, PageSize).fetchCalls
            == [FetchCall(StrategyFor(useEvents), 0, PageSize)]
  {
    FirstRoundRead(useEvents, {Sub(UnusedType)});
    RequestsOfCall(Env(useEvents, FirstRound, {Sub(UnusedType)}), KeyFor(useEvents));
  }

  /** First round: "user-2" is subscribed to an unused event type only, so
      the resolver batch is empty, the resolver is not called and nobody gets
      a digest. */
  lemma FirstRoundHasNoRecipient(useEvents: bool)
    ensures var r := GetAggregated(Env(useEvents, FirstRound, {Sub(UnusedType)}), KeyFor(useEvents), Daily, PageSize);
            r.resolverCalls == [] && r.digests == map[]
  {
    FirstRoundRead(useEvents, {Sub(UnusedType)});
    UnusedSubscriptionGetsNothing(Env(useEvents, FirstRound, {Sub(UnusedType)}), KeyFor(useEvents));
  }

  /** With "user-2" subscribed to the unused event type only and every record
      read of the records' event type, the batch is empty: no resolver call
      and no digest. */
  lemma UnusedSubscriptionGetsNothing(env: Collaborators, key: AggregationKey)
    requires key.orgId == "org-1" && key.application == "policies"
    requires env.subscriptions == {Sub(UnusedType)}
    requires OfType(RecordsRead(env, key), RecordType)
    ensures Batch(env, key, Daily) == {}
    ensures var r := GetAggregated(env, key, Daily, PageSize);
            r.resolverCalls == [] && r.digests == map[]
  {
    var records := RecordsRead(env, key);
    NamesDiffer();
    forall i, id | 0 <= i < |records| ensures !SubscribedTo(env.subscriptions, key, Daily, id, records[i].eventType) {
      assert records[i].eventType == RecordType;
    }
  }

  /** Once "user-2" is also subscribed to the records' event type, the
      resolver is asked about "user-2" alone and resolves it to the user of
      that e-mail. */
  lemma ResolvedUser2(env: Collaborators, key: AggregationKey)
    requires key.orgId == "org-1" && key.application == "policies"
    requires env.resolve == Identity && env.subscriptions == {Sub(UnusedType), Sub(RecordType)}
    requires RecordsRead(env, key) != [] && OfType(RecordsRead(env, key), RecordType)
    ensures Batch(env, key, Daily) == {"user-2"}
    ensures Resolved(env, key, Daily) == map["user-2" := User("user-2")]
  {
    var records := RecordsRead(env, key);
    assert SubscribedTo(env.subscriptions, key, Daily, "user-2", records[0].eventType);
    forall id | id in Batch(env, key, Daily) ensures id == "user-2" {
      var i :| 0 <= i < |records| && SubscribedTo(env.subscriptions, key, Daily, id, records[i].eventType);
    }
  }

  /** Second round: eight in-scope records fill one page and leave three for
      a second, so requests go out at offsets 0 and 5. */
  lemma SecondRoundRequests(useEvents: bool)
    ensures GetAggregated(Env(useEvents, FirstRound + SecondRound, {Sub(UnusedType), Sub(RecordType)}),
                          KeyFor(useEvents), Daily, PageSize).fetchCalls
            == [FetchCall(StrategyFor(useEvents), 0, PageSize), FetchCall(StrategyFor(useEvents), 5, PageSize)]
  {
    SecondRoundRead(useEvents, {Sub(UnusedType), Sub(RecordType)});
    RequestsOfCall(Env(useEvents, FirstRound + SecondRound, {Sub(UnusedType), Sub(RecordType)}), KeyFor(useEvents));
  }

  /** Second round: once "user-2" is subscribed to the records' event type as
      well, the resolver is called once, for "user-2" alone. */
  lemma SecondRoundResolverCall(useEvents: bool)
    ensures GetAggregated(Env(useEvents, FirstRound + SecondRound, {Sub(UnusedType), Sub(RecordType)}),
                          KeyFor(useEvents), Daily, PageSize).resolverCalls
            == [{"user-2"}]
  {
    var env := Env(useEvents, FirstRound + SecondRound, {Sub(UnusedType), Sub(RecordType)});
    SecondRoundRead(useEvents, env.subscriptions);
    ResolvedUser2(env, KeyFor(useEvents));
  }

  /** Second round: "user-2" is the one recipient, and their digest holds all
      eight payloads under "policies", first round first. */
  lemma SecondRoundReachesUser2(useEvents: bool)
    ensures GetAggregated(Env(useEvents, FirstRound + SecondRound, {Sub(UnusedType), Sub(RecordType)}),
                          KeyFor(useEvents), Daily, PageSize).digests
            == map[User("user-2") := map["policies" := ["a1", "a2", "a3", "a4", "b1", "b2", "b3", "b4"]]]
  {
    var env := Env(useEvents, FirstRound + SecondRound, {Sub(UnusedType), Sub(RecordType)});
    SecondRoundRead(useEvents, env.subscriptions);
    SubscriptionGetsAll(env, KeyFor(useEvents));
    PayloadsOfTwoRounds("a1", "a2", "a3", "a4", "b1", "b2", "b3", "b4");
  }

  lemma PayloadsOfTwoRounds(p: string, q: string, r: string, s: string, t: string, u: string, v: string, w: string)
    ensures Payloads(Org1(p, q, r, s) + Org1(t, u, v, w)) == [p, q, r, s, t, u, v, w]
  {
    var x := Org1(p, q, r, s) + Org1(t, u, v, w);
    assert x[0].payload == p && x[1].payload == q && x[2].payload == r && x[3].payload == s;
    assert x[4].payload == t && x[5].payload == u && x[6].payload == v && x[7].payload == w;
  }

  /** With "user-2" subscribed to the records' event type, "user-2" is the
      only recipient and receives every payload read. */
  lemma SubscriptionGetsAll(env: Collaborators, key: AggregationKey)
    requires key.orgId == "org-1" && key.application == "policies"
    requires env.resolve == Identity && env.subscriptions == {Sub(UnusedType), Sub(RecordType)}
    requires RecordsRead(env, key) != [] && OfType(RecordsRead(env, key), RecordType)
    ensures GetAggregated(env, key, Daily, PageSize).digests
            == map[User("user-2") := map[key.application := Payloads(RecordsRead(env, key))]]
  {
    var digests := GetAggregated(env, key, Daily, PageSize).digests;
    ResolvedUser2(env, key);
    assert digests.Keys <= {User("user-2")} by {
      NoDigestOutsideResolved(env, key, Daily, PageSize);
    }
    assert User("user-2") in digests && digests[User("user-2")] == map[key.application := Payloads(RecordsRead(env, key))] by {
      assert SubscribedTo(env.subscriptions, key, Daily, "user-2", RecordType);
      DigestOfFullSubscriber(env, key, Daily, PageSize, "user-2", User("user-2"));
    }
    OnlyDigest(digests, User("user-2"), map[key.application := Payloads(RecordsRead(env, key))]);
  }

  /** A digest map with one recipient. */
  lemma OnlyDigest(digests: map<User, Digest>, user: User, digest: Digest)
    requires digests.Keys <= {user} && user in digests && digests[user] == digest
    ensures digests == map[user := digest]
  {
  }
}

=== FILE: log_level_manager.dfy ===
/** The runtime log-level reconciliation of the notifications engine.

    On every scheduler tick the manager reads a feature-flag variant. An
    enabled variant carries a JSON list of log configs; each config that
    targets this host and names a known level is applied to its logger
    category, remembering the level it replaces. Remembered categories that
    the list no longer mentions are reverted and forgotten. A disabled
    variant reverts every remembered category and forgets them all. */
module LogLevelManager {
  import opened Wrappers

  /** The nine standard java.util.logging levels. `Level.equals` compares
      levels by their int value, so a level here stands for its value. */
  datatype Level = Off | Severe | Warning | Info | Config | Fine | Finer | Finest | All

  /** Explicit logger levels by category. A category absent from the map
      has no level of its own: it inherits its parent's (`null`). */
  type Loggers = map<string, Level>

  /** The level each changed category had before the manager changed it,
      `None` when it was inherited. */
  type SavedLevels = map<string, Option<Level>>

  /** The state the reconciliation acts on: the logger registry and the
      manager's undo record. */
  datatype Manager = Manager(loggers: Loggers, previous: SavedLevels)

  /** The payload type the variant must declare. */
  const JsonType: string := "json"

  /** One entry of the variant's payload. A missing host name targets every host. */
  datatype LogConfig = LogConfig(category: string, hostName: Option<string>, level: string)

  datatype Payload = Payload(kind: string, value: Option<string>)

  datatype Variant = Variant(enabled: bool, payload: Option<Payload>)

  /** The level a category's logger currently carries, `None` when inherited. */
  function LevelOf(loggers: Loggers, category: string): Option<Level>
  {
    if category in loggers then Some(loggers[category]) else None
  }

  /** Two registries are equal exactly when every category carries the same level. */
  lemma LoggersEqual(a: Loggers, b: Loggers)
    requires forall c :: LevelOf(a, c) == LevelOf(b, c)
    ensures a == b
  {
    assert a.Keys == b.Keys by {
      forall c | c in a ensures c in b {
        assert LevelOf(a, c).Some?;
      }
      forall c | c in b ensures c in a {
        assert LevelOf(b, c).Some?;
      }
    }
    forall c | c in a ensures a[c] == b[c] {
      assert LevelOf(a, c) == LevelOf(b, c);
    }
  }

  /** The Quarkus name the manager accepts for a JUL level, if any. */
  function QuarkusName(level: Level): Option<string>
  {
    match level
    case Finer => Some("TRACE")
    case Fine => Some("DEBUG")
    case Info => Some("INFO")
    case Warning => Some("WARN")
    case Severe => Some("ERROR")
    case _ => None
  }

  /** Converts a Quarkus level name into a JUL level; any other name has none. */
  function GetLogLevel(name: string): (r: Option<Level>)
    ensures forall l :: r == Some(l) <==> QuarkusName(l) == Some(name)
  {
    if name == "TRACE" then Some(Finer)
    else if name == "DEBUG" then Some(Fine)
    else if name == "INFO" then Some(Info)
    else if name == "WARN" then Some(Warning)
    else if name == "ERROR" then Some(Severe)
    else None
  }

  /** `Logger.setLevel`: gives one category a level (or makes it inherit)
      and leaves every other category alone. */
  function SetLevel(loggers: Loggers, category: string, level: Option<Level>): (r: Loggers)
    ensures LevelOf(r, category) == level
    ensures forall c :: c != category ==> LevelOf(r, c) == LevelOf(loggers, c)
  {
    match level
    case Some(l) => loggers[category := l]
    case None => loggers - {category}
  }

  /** `revertLogLevel` applied to every entry of `saved`: each saved category
      gets its saved level back, every other category keeps its level. */
  function RevertAll(loggers: Loggers, saved: SavedLevels): (r: Loggers)
    ensures forall c :: LevelOf(r, c) == if c in saved then saved[c] else LevelOf(loggers, c)
  {
    map c | c in loggers.Keys + saved.Keys && (c in saved ==> saved[c].Some?)
      :: if c in saved then saved[c].value else loggers[c]
  }

  /** `updateLogLevels` reverts saved entries one at a time while iterating a
      hash map, in no fixed order. Reverting all of them at once is the same as
      reverting any single one last. */
  lemma RevertAllOneByOne(loggers: Loggers, saved: SavedLevels, category: string)
    requires category in saved
    ensures RevertAll(loggers, saved)
         == SetLevel(RevertAll(loggers, saved - {category}), category, saved[category])
  {
    var a := RevertAll(loggers, saved);
    var b := SetLevel(RevertAll(loggers, saved - {category}), category, saved[category]);
    forall c ensures LevelOf(a, c) == LevelOf(b, c) {
    }
    LoggersEqual(a, b);
  }

  /** Whether a config targets the instance running on `hostName`. */
  predicate TargetsHost(hostName: string, config: LogConfig)
  {
    config.hostName.None? || config.hostName.value == hostName
  }

  /** One iteration of the apply loop. */
  function ApplyConfig(hostName: string, m: Manager, config: LogConfig): (r: Manager)
    ensures !TargetsHost(hostName, config) || GetLogLevel(config.level).None? ==> r == m
    ensures LevelOf(m.loggers, config.category) == GetLogLevel(config.level) ==> r == m
    ensures TargetsHost(hostName, config) && GetLogLevel(config.level).Some?
              && LevelOf(m.loggers, config.category) != GetLogLevel(config.level) ==>
              && LevelOf(r.loggers, config.category) == GetLogLevel(config.level)
              && r.previous == m.previous[config.category := LevelOf(m.loggers, config.category)]
    ensures forall c :: c != config.category ==> LevelOf(r.loggers, c) == LevelOf(m.loggers, c)
  {
    if !TargetsHost(hostName, config) then m
    else match GetLogLevel(config.level)
      case None => m
      case Some(newLevel) =>
        var current := LevelOf(m.loggers, config.category);
        if current == Some(newLevel) then m
        else Manager(SetLevel(m.loggers, config.category, Some(newLevel)),
                     m.previous[config.category := current])
  }

  /** The categories named by a config list, whatever their host or level. */
  function Categories(configs: seq<LogConfig>): set<string>
  {
    set i | 0 <= i < |configs| :: configs[i].category
  }

  /** The apply loop: every config, in order. Only categories the list names
      are touched, and only they can enter the undo record. */
  function ApplyConfigs(hostName: string, m: Manager, configs: seq<LogConfig>): (r: Manager)
    ensures r.previous.Keys <= m.previous.Keys + Categories(configs)
    ensures forall c :: c !in Categories(configs) ==>
              LevelOf(r.loggers, c) == LevelOf(m.loggers, c)
              && (c in r.previous <==> c in m.previous)
              && (c in m.previous ==> r.previous[c] == m.previous[c])
    decreases |configs|
  {
    if configs == [] then m
    else
      assert Categories(configs) == {configs[0].category} + Categories(configs[1..]) by {
        forall x | x in Categories(configs)
          ensures x in {configs[0].category} + Categories(configs[1..])
        {
          var i :| 0 <= i < |configs| && configs[i].category == x;
          if i > 0 { assert configs[1..][i - 1] == configs[i]; }
        }
        forall x | x in Categories(configs[1..]) ensures x in Categories(configs) {
          var i :| 0 <= i < |configs[1..]| && configs[1..][i].category == x;
          assert configs[i + 1] == configs[1..][i];
        }
      }
      ApplyConfigs(hostName, ApplyConfig(hostName, m, configs[0]), configs[1..])
  }

  /** The prune step after an enabled update: saved categories outside
      `categories` are reverted and forgotten; the others are kept as they are. */
  function Prune(m: Manager, categories: set<string>): (r: Manager)
    ensures r.previous.Keys == m.previous.Keys * categories
    ensures forall c :: c in r.previous ==> r.previous[c] == m.previous[c]
    ensures forall c :: LevelOf(r.loggers, c)
              == if c in m.previous && c !in categories then m.previous[c] else LevelOf(m.loggers, c)
  {
    var dropped := map c | c in m.previous && c !in categories :: m.previous[c];
    Manager(RevertAll(m.loggers, dropped),
            map c | c in m.previous && c in categories :: m.previous[c])
  }

  /** The disabled branch: every saved category is reverted, the record is cleared. */
  function Disable(m: Manager): (r: Manager)
    ensures r.previous == map[]
    ensures forall c :: LevelOf(r.loggers, c) == if c in m.previous then m.previous[c] else LevelOf(m.loggers, c)
  {
    Manager(RevertAll(m.loggers, m.previous), map[])
  }

  /** The payload checks of an enabled variant: a payload must be present,
      declare the JSON type, carry a value, and that value must decode. */
  function ReadConfigs(payload: Option<Payload>, decode: string -> Option<seq<LogConfig>>): (r: Option<seq<LogConfig>>)
    ensures r.Some? <==> payload.Some? && payload.value.kind == JsonType
                         && payload.value.value.Some? && decode(payload.value.value.value).Some?
    ensures r.Some? ==> r == decode(payload.value.value.value)
  {
    if payload.None? then None
    else if payload.value.kind != JsonType then None
    else if payload.value.value.None? then None
    else decode(payload.value.value.value)
  }

  /** One scheduler tick. `decode` stands for the JSON deserialisation of the
      payload value into a config list; `None` is a parse failure. */
  function UpdateLogLevels(hostName: string, variant: Variant, decode: string -> Option<seq<LogConfig>>,
                           m: Manager): (r: Manager)
    // an unusable payload changes nothing
    ensures variant.enabled && ReadConfigs(variant.payload, decode).None? ==> r == m
    // after an enabled update only configured categories stay saved ...
    ensures variant.enabled && ReadConfigs(variant.payload, decode).Some? ==>
              r.previous.Keys <= Categories(ReadConfigs(variant.payload, decode).value)
    // ... each forgotten one is back at its saved level ...
    ensures variant.enabled && ReadConfigs(variant.payload, decode).Some? ==>
              forall c :: c in m.previous && c !in Categories(ReadConfigs(variant.payload, decode).value) ==>
                c !in r.previous && LevelOf(r.loggers, c) == m.previous[c]
    // ... and an unconfigured, unsaved category is untouched
    ensures variant.enabled && ReadConfigs(variant.payload, decode).Some? ==>
              forall c :: c !in m.previous && c !in Categories(ReadConfigs(variant.payload, decode).value) ==>
                c !in r.previous && LevelOf(r.loggers, c) == LevelOf(m.loggers, c)
    // a disabled variant restores every saved level and clears the record
    ensures !variant.enabled ==> r.previous == map[]
    ensures !variant.enabled ==>
              forall c :: LevelOf(r.loggers, c) == if c in m.previous then m.previous[c] else LevelOf(m.loggers, c)
  {
    if !variant.enabled then Disable(m)
    else match ReadConfigs(variant.payload, decode)
      case None => m
      case Some(configs) => Prune(ApplyConfigs(hostName, m, configs), Categories(configs))
  }
}

=== FILE: log_level_slots.dfy ===
/** A per-category view of the log-level reconciliation.

    The apply loop touches categories independently of each other, so its
    effect on one category is a fold of that category's requested levels
    over the pair (current level, saved level). This module proves that the
    map-level model agrees with that fold and uses it to show that a tick is
    idempotent: repeating it with the same variant changes nothing. */
module LogLevelSlots {
  import opened Wrappers
  import opened LogLevelManager

  /** What the manager knows about one category: its current level and,
      when the category is in the undo record, the level saved for it. */
  datatype Slot = Slot(level: Option<Level>, saved: Option<Option<Level>>)

  function SlotOf(m: Manager, category: string): Slot
  {
    Slot(LevelOf(m.loggers, category),
         if category in m.previous then Some(m.previous[category]) else None)
  }

  /** Two managers are equal exactly when they agree on every category. */
  lemma ManagersEqual(a: Manager, b: Manager)
    requires forall c :: SlotOf(a, c) == SlotOf(b, c)
    ensures a == b
  {
    forall c ensures LevelOf(a.loggers, c) == LevelOf(b.loggers, c) {
      assert SlotOf(a, c) == SlotOf(b, c);
    }
    LoggersEqual(a.loggers, b.loggers);
    assert a.previous.Keys == b.previous.Keys by {
      forall c | c in a.previous ensures c in b.previous {
        assert SlotOf(a, c).saved.Some?;
      }
      forall c | c in b.previous ensures c in a.previous {
        assert SlotOf(b, c).saved.Some?;
      }
    }
    forall c | c in a.previous ensures a.previous[c] == b.previous[c] {
      assert SlotOf(a, c) == SlotOf(b, c);
    }
  }

  /** The level a config asks for, when it targets this host and names a known level. */
  function Requested(hostName: string, config: LogConfig): Option<Level>
  {
    if TargetsHost(hostName, config) then GetLogLevel(config.level) else None
  }

  /** The levels the config list asks for `category`, in list order. */
  function RequestedFor(hostName: string, configs: seq<LogConfig>, category: string): (r: seq<Level>)
    ensures |r| <= |configs|
    ensures category !in Categories(configs) ==> r == []
  {
    if configs == [] then []
    else
      var head := if configs[0].category == category && Requested(hostName, configs[0]).Some?
                  then [Requested(hostName, configs[0]).value] else [];
      var rest := RequestedFor(hostName, configs[1..], category);
      assert category !in Categories(configs) ==> category !in Categories(configs[1..]) by {
        if category in Categories(configs[1..]) {
          var i :| 0 <= i < |configs[1..]| && configs[1..][i].category == category;
          assert configs[i + 1].category == category;
        }
      }
      head + rest
  }

  /** One requested level: a change only when it differs, saving the level it replaces. */
  function StepSlot(s: Slot, level: Level): Slot
  {
    if s.level == Some(level) then s else Slot(Some(level), Some(s.level))
  }

  /** The requested levels applied in order. */
  function RunSlot(s: Slot, levels: seq<Level>): Slot
    decreases |levels|
  {
    if levels == [] then s else RunSlot(StepSlot(s, levels[0]), levels[1..])
  }

  /** The map-level apply loop and the per-category fold agree on every category. */
  lemma {:induction false} ApplyConfigsBySlot(hostName: string, m: Manager, configs: seq<LogConfig>, category: string)
    ensures SlotOf(ApplyConfigs(hostName, m, configs), category)
         == RunSlot(SlotOf(m, category), RequestedFor(hostName, configs, category))
    decreases |configs|
  {
    if configs != [] {
      var m1 := ApplyConfig(hostName, m, configs[0]);
      ApplyConfigsBySlot(hostName, m1, configs[1..], category);
      var rest := RequestedFor(hostName, configs[1..], category);
      if configs[0].category == category && Requested(hostName, configs[0]).Some? {
        var l := Requested(hostName, configs[0]).value;
        assert SlotOf(m1, category) == StepSlot(SlotOf(m, category), l);
        assert RequestedFor(hostName, configs, category) == [l] + rest;
        assert ([l] + rest)[1..] == rest;
      } else {
        assert SlotOf(m1, category) == SlotOf(m, category);
        assert RequestedFor(hostName, configs, category) == rest;
      }
    }
  }

  /** After a non-empty run the category carries the last requested level. */
  lemma {:induction false} RunSlotEndsAtLast(s: Slot, levels: seq<Level>)
    requires levels != []
    ensures RunSlot(s, levels).level == Some(levels[|levels| - 1])
    decreases |levels|
  {
    if |levels| > 1 {
      RunSlotEndsAtLast(StepSlot(s, levels[0]), levels[1..]);
    }
  }

  /** Requests equal to the current level change nothing: only deltas are applied. */
  lemma {:induction false} RunSlotSteady(level: Level, saved: Option<Option<Level>>, levels: seq<Level>)
    requires forall i :: 0 <= i < |levels| ==> levels[i] == level
    ensures RunSlot(Slot(Some(level), saved), levels) == Slot(Some(level), saved)
    decreases |levels|
  {
    if levels != [] {
      RunSlotSteady(level, saved, levels[1..]);
    }
  }

  /** Once a run contains a level different from the current one, the saved
      level it started with is overwritten and no longer matters. */
  lemma {:induction false} RunSlotForgetsSaved(current: Option<Level>, s: Option<Option<Level>>, t: Option<Option<Level>>,
                                               levels: seq<Level>)
    requires exists i :: 0 <= i < |levels| && Some(levels[i]) != current
    ensures RunSlot(Slot(current, s), levels) == RunSlot(Slot(current, t), levels)
    decreases |levels|
  {
    if Some(levels[0]) == current {
      var i :| 0 <= i < |levels| && Some(levels[i]) != current;
      assert levels[1..][i - 1] == levels[i];
      RunSlotForgetsSaved(current, s, t, levels[1..]);
    } else {
      assert StepSlot(Slot(current, s), levels[0]) == StepSlot(Slot(current, t), levels[0]);
    }
  }

  /** Running the same requests twice is the same as running them once. */
  lemma RunSlotIdempotent(s: Slot, levels: seq<Level>)
    ensures RunSlot(RunSlot(s, levels), levels) == RunSlot(s, levels)
  {
    if levels != [] {
      var first := RunSlot(s, levels);
      var a := levels[0];
      var rest := levels[1..];
      assert StepSlot(s, a).level == Some(a);
      assert StepSlot(first, a).level == Some(a);
      if exists i :: 0 <= i < |rest| && Some(rest[i]) != Some(a) {
        RunSlotForgetsSaved(Some(a), StepSlot(s, a).saved, StepSlot(first, a).saved, rest);
      } else {
        RunSlotSteady(a, StepSlot(s, a).saved, rest);
        assert first == StepSlot(s, a);
      }
    }
  }

  /** The saved entry is overwritten on every change: after two successive
      changes of one category it holds the intermediate level, not the original. */
  lemma SavedIsIntermediate(hostName: string, m: Manager, first: LogConfig, second: LogConfig)
    requires first.category == second.category
    requires Requested(hostName, first).Some? && Requested(hostName, second).Some?
    requires Requested(hostName, first) != Requested(hostName, second)
    requires LevelOf(m.loggers, first.category) != Requested(hostName, first)
    ensures var r := ApplyConfigs(hostName, m, [first, second]);
            && LevelOf(r.loggers, first.category) == Requested(hostName, second)
            && first.category in r.previous
            && r.previous[first.category] == Requested(hostName, first)
  {
    ApplyConfigsBySlot(hostName, m, [first, second], first.category);
    assert RequestedFor(hostName, [first, second], first.category)
        == [Requested(hostName, first).value, Requested(hostName, second).value] by {
      assert [first, second][1..] == [second];
      assert [second][1..] == [];
    }
  }

  /** On every category the config list names, an enabled tick with a usable
      payload is the fold of that category's requested levels: the category
      ends at the last level requested for it, and the record keeps the
      level it had before the last change. */
  lemma UpdateBySlot(hostName: string, variant: Variant, decode: string -> Option<seq<LogConfig>>, m: Manager,
                     category: string)
    requires variant.enabled && ReadConfigs(variant.payload, decode).Some?
    requires category in Categories(ReadConfigs(variant.payload, decode).value)
    ensures var configs := ReadConfigs(variant.payload, decode).value;
            SlotOf(UpdateLogLevels(hostName, variant, decode, m), category)
            == RunSlot(SlotOf(m, category), RequestedFor(hostName, configs, category))
  {
    var configs := ReadConfigs(variant.payload, decode).value;
    ApplyConfigsBySlot(hostName, m, configs, category);
    assert UpdateLogLevels(hostName, variant, decode, m)
        == Prune(ApplyConfigs(hostName, m, configs), Categories(configs));
  }

  /** A tick is idempotent: repeating it with the same variant and no change
      from outside leaves the loggers and the undo record as they are. */
  lemma UpdateIdempotent(hostName: string, variant: Variant, decode: string -> Option<seq<LogConfig>>, m: Manager)
    ensures var once := UpdateLogLevels(hostName, variant, decode, m);
            UpdateLogLevels(hostName, variant, decode, once) == once
  {
    var once := UpdateLogLevels(hostName, variant, decode, m);
    var twice := UpdateLogLevels(hostName, variant, decode, once);
    if !variant.enabled {
      forall c ensures SlotOf(twice, c) == SlotOf(once, c) {
      }
      ManagersEqual(twice, once);
    } else if ReadConfigs(variant.payload, decode).Some? {
      var configs := ReadConfigs(variant.payload, decode).value;
      var categories := Categories(configs);
      var applied := ApplyConfigs(hostName, m, configs);
      var reapplied := ApplyConfigs(hostName, once, configs);
      assert once == Prune(applied, categories);
      assert twice == Prune(reapplied, categories);
      forall c ensures SlotOf(twice, c) == SlotOf(once, c) {
        if c in categories {
          UpdateBySlot(hostName, variant, decode, m, c);
          UpdateBySlot(hostName, variant, decode, once, c);
          RunSlotIdempotent(SlotOf(m, c), RequestedFor(hostName, configs, c));
        }
      }
      ManagersEqual(twice, once);
    }
  }
}

=== FILE: wrappers.dfy ===
/** The optional-value datatype shared by the other modules: `None` stands
    for Java's `null` / `Optional.empty()`. */
module Wrappers {

  datatype Option<+T> = None | Some(value: T)
}
